=== FILE: README.md ===
# Product catalogue service: authentication gate, route rules and product store

This project models, in Dafny, the decision logic of a Spring Boot product-catalogue
service:

- **JwtUtils**: issues HS256-signed JSON Web Tokens carrying `sub`, `iat` and `exp`
  (sections 4.1.2, 4.1.6 and 4.1.4 of RFC 7519; HMAC-SHA256 as in section 3.2 of
  RFC 7518). It also parses them and judges them valid for a user.
- **JwtFilter**: the per-request filter. It strips the case-sensitive `Bearer ` marker
  (section 2.1 of RFC 6750), resolves the token's subject and may install an
  authentication in the security context.
- **SecurityConfig**: the first-match authorization rule list, with the filter
  placed in front of it.
- **ProductService**: the product operations over a repository.
- **GlobalExceptionHandler**: the mapping from exception to HTTP status and body.

Everything is a pure function over explicit values:

- The security context, the clock readings, the user-lookup service and the
  product table are inputs.
- The HMAC and the token's compact serialization are uninterpreted function-valued
  fields of `JwtUtils.JwsLibrary`. `JwtUtils.Sound` states that the parser reads
  back whatever the serializer writes.
- Every Java exception is a `Failure`. A filter pass that throws is `Aborted`.

Files: `wrappers.dfy` (Option/Result), `strings.dfy` (`startsWith`, `contains`),
`jwt_utils.dfy`, `jwt_filter.dfy`, `security_config.dfy`, `exceptions.dfy`,
`product_service.dfy` and `exception_handler.dfy`.

Behaviour of the code that a reader of a token gate might not expect:

- A token that does not parse or whose signature does not match is not answered
  "invalid": `validateToken` and subject extraction throw. In the filter, this
  aborts the request (`JwtFilter.ForgedTokenAborts`).
- A user-lookup failure is not absorbed either. The filter has no `try`/`catch`, so
  the request aborts (`JwtFilter.FailuresPropagate`).
- The expiry test is `exp.before(now)`. A token whose `exp` equals `now` is still
  valid (`JwtUtils.ExpiryBoundaryIsStrict`).
- Subject extraction runs even when the context is already authenticated. A bad
  token therefore aborts such a request, although lookup and validation are
  skipped (`JwtFilter.ExistingAuthenticationKept`).

Consequences of the code as written, proved rather than repaired:

- Neither conversion copies `code`. A product created through the service is stored
  with a null code, so a later creation with the same code is not refused because
  of it (`ProductService.CreatedCodeNotRecorded`).
- The returned DTO also has a null code.
- The duplicate-code message is French and does not contain `code already exist`.
  A duplicate creation therefore answers 400. It answers 409 only when the code
  itself contains that phrase (`GlobalExceptionHandler.DuplicateCreateStatus`).
- `/products` requires authentication, so an unauthenticated request to it is
  refused (`SecurityConfig.ProtectedPathWithoutHeaderDenied`).

## Model

| member | source | states |
|---|---|---|
| JwtUtils.AddLong | src/main/java/com/example/produits/Config/JwtUtils.java:66 | the `long` sum of clock reading and time-to-live agrees with the true sum modulo 2^64, and equals it when in range |
| JwtUtils.CreateToken | src/main/java/com/example/produits/Config/JwtUtils.java:61-69 | under a sound codec the compact token parses back to the issued claims (subject, first reading, wrapped expiry, custom claims) signed with the configured key's HS256 |
| JwtUtils.GenerateToken | src/main/java/com/example/produits/Config/JwtUtils.java:44-47 | under a sound codec the token parses to claims whose subject is the username and which carry no custom claim |
| JwtUtils.ExtractUsername | src/main/java/com/example/produits/Config/JwtUtils.java:117-119 | succeeds exactly when the verified parse succeeds, yielding the claims' subject (possibly null); otherwise raises the parse's error |
| JwtUtils.ExtractExpirationDate | src/main/java/com/example/produits/Config/JwtUtils.java:127-129 | succeeds exactly when the verified parse succeeds, yielding the claims' expiry (possibly null); otherwise raises the parse's error |
| JwtUtils.IsTokenExpired | src/main/java/com/example/produits/Config/JwtUtils.java:106-108 | answers only for a verified token carrying an expiry, and answers true iff that expiry is strictly before now; a missing expiry or a failed parse raises |
| JwtUtils.ExtractAllClaims | src/main/java/com/example/produits/Config/JwtUtils.java:152-154 | succeeds iff the token parses and its signature is the configured key's HS256 over its claims, returning those claims; otherwise it raises malformed (iff unparsable) or bad-signature |
| JwtUtils.ValidateToken | src/main/java/com/example/produits/Config/JwtUtils.java:92-95 | true iff the verified claims have subject equal to the user's name and an expiry not strictly before now; raises exactly when parsing fails, the subject is missing, or the subject matches but the expiry is missing |
| JwtUtils.CreateTokenRoundTrip | src/main/java/com/example/produits/Config/JwtUtils.java:61-69 | a created token parses under the same key back to subject, first clock reading, second reading plus time-to-live, and the custom claims minus `sub`/`iat`/`exp` |
| JwtUtils.GenerateTokenClaims | src/main/java/com/example/produits/Config/JwtUtils.java:44-47 | `generateToken(u)` yields subject `u`, no custom claim, `iat` the first reading and `exp` the second reading plus the time-to-live |
| JwtUtils.IssueWindow | src/main/java/com/example/produits/Config/JwtUtils.java:65-66 | with a non-decreasing clock and no overflow, exp >= iat + time-to-live |
| JwtUtils.OverflowingLifetimeExpiresAtIssue | src/main/java/com/example/produits/Config/JwtUtils.java:66 | a time-to-live that overflows the `long` sum stamps an expiry before issue, so the fresh token is refused |
| JwtUtils.ForeignKeyRejected | src/main/java/com/example/produits/Config/JwtUtils.java:152-154 | a token signed under another key fails to parse, and validation raises instead of returning false |
| JwtUtils.TamperedClaimsRejected | src/main/java/com/example/produits/Config/JwtUtils.java:152-154 | claims altered after signing fail to parse and validation raises |
| JwtUtils.TamperedSignatureRejected | src/main/java/com/example/produits/Config/JwtUtils.java:152-154 | a token whose signature was altered fails to parse and validation raises |
| JwtUtils.ExpiryBoundaryIsStrict | src/main/java/com/example/produits/Config/JwtUtils.java:106-108 | a token with exp == now and the right subject is valid |
| JwtUtils.IssuedTokenValidUntilExpiry | src/main/java/com/example/produits/Config/JwtUtils.java:92-95 | a token issued for u validates against u exactly at the instants no later than its stamped expiry, and `validateToken` refuses, not raises, after (the library parser's own expiry rejection is left out) |
| JwtUtils.OtherUserNeverValidates | src/main/java/com/example/produits/Config/JwtUtils.java:94 | a token for u1 is refused for any user named differently, at every instant |
| JwtFilter.BearerToken | src/main/java/com/example/produits/Filter/JwtFilter.java:43-44 | a token is extracted iff the header exists and starts with `Bearer `, and header == `Bearer ` + token |
| JwtFilter.DoFilterInternal | src/main/java/com/example/produits/Filter/JwtFilter.java:43-94 | a pass that continues changes the context only from empty to an installed authentication, and never replaces an existing one |
| JwtFilter.BearerPrefixStripped | src/main/java/com/example/produits/Filter/JwtFilter.java:44 | header `Bearer ` + t yields exactly t |
| JwtFilter.NoBearerNoWork | src/main/java/com/example/produits/Filter/JwtFilter.java:43-46 | without a bearer header, nothing is extracted, looked up or validated; the context is unchanged and the chain continues |
| JwtFilter.ExistingAuthenticationKept | src/main/java/com/example/produits/Filter/JwtFilter.java:53 | an existing authentication is kept; no lookup, validation or install happens; the pass continues iff there is no bearer token or subject extraction succeeds, and otherwise aborts with the extraction's error |
| JwtFilter.SubjectlessTokenPassesThrough | src/main/java/com/example/produits/Filter/JwtFilter.java:53 | a verified token without a subject skips lookup and validation; the chain continues with the context unchanged, whatever it was |
| JwtFilter.AuthenticatesOnlyValidTokens | src/main/java/com/example/produits/Filter/JwtFilter.java:59-86 | from an empty context the pass authenticates iff the subject resolves to a user for whom validation returns true; the principal is that user, credentials null, authorities the user's |
| JwtFilter.RefusedTokenStaysUnauthenticated | src/main/java/com/example/produits/Filter/JwtFilter.java:59-88 | when validation of the looked-up user returns false, whether the token has expired or the user's name differs from the subject, the context stays empty, nothing is raised, and the chain continues after extract, load and validate (the library parser's own expiry rejection is left out) |
| JwtFilter.ValidationFailurePropagates | src/main/java/com/example/produits/Filter/JwtFilter.java:59 | an exception raised by `validateToken` for the looked-up user (e.g. a missing expiry) is not caught: the request aborts with that error after extract, load and validate, and the chain is not continued |
| JwtFilter.ChainContinuedOnceAtEnd | src/main/java/com/example/produits/Filter/JwtFilter.java:94 | every non-throwing pass continues the chain exactly once, as its last step; a throwing pass never does |
| JwtFilter.FailuresPropagate | src/main/java/com/example/produits/Filter/JwtFilter.java:45-56 | an extraction failure or a lookup failure aborts the request |
| JwtFilter.ForgedTokenAborts | src/main/java/com/example/produits/Filter/JwtFilter.java:45 | a bearer token signed under another key aborts the request at extraction |
| SecurityConfig.FirstMatch | src/main/java/com/example/produits/Config/SecurityConfig.java:70-73 | an access is returned only when some rule matches the path and carries that access; nothing is returned only when no rule matches |
| SecurityConfig.DeclaredRulesDecision | src/main/java/com/example/produits/Config/SecurityConfig.java:70-73 | the declared rule list decides permit-all for a path under either public pattern and authenticated for every other path |
| SecurityConfig.Allowed | src/main/java/com/example/produits/Config/SecurityConfig.java:70-73 | a request is allowed iff its path is under a public pattern or it is authenticated |
| SecurityConfig.FirstMatchIsEarliest | src/main/java/com/example/produits/Config/SecurityConfig.java:70-73 | the rule list yields the access of the earliest matching rule, and nothing iff no rule matches |
| SecurityConfig.PublicPathsAllowed | src/main/java/com/example/produits/Config/SecurityConfig.java:71-72 | a path under either public pattern is allowed with or without authentication |
| SecurityConfig.AuthRoutesPublic | src/main/java/com/example/produits/Config/SecurityConfig.java:71 | `/api/auth` and everything below it are allowed regardless of authentication |
| SecurityConfig.DistanceRoutesPublic | src/main/java/com/example/produits/Config/SecurityConfig.java:72 | `/api/distance` and everything below it are allowed regardless of authentication |
| SecurityConfig.OtherRoutesNeedAuthentication | src/main/java/com/example/produits/Config/SecurityConfig.java:73 | every other path is allowed iff the request is authenticated |
| SecurityConfig.RulesTriedInOrder | src/main/java/com/example/produits/Config/SecurityConfig.java:70-73 | some rule decides every path, and the decision is that of the earliest matching rule |
| SecurityConfig.AuthenticationIsMonotone | src/main/java/com/example/produits/Config/SecurityConfig.java:70-73 | becoming authenticated never turns an allowed request into a refused one |
| SecurityConfig.Serve | src/main/java/com/example/produits/Config/SecurityConfig.java:74 | the request fails in the filter iff the JWT filter pass aborts; otherwise authorization sees exactly the context that pass leaves, and the request is admitted iff the rules allow it under that context |
| SecurityConfig.FilterRunsOnPublicPaths | src/main/java/com/example/produits/Config/SecurityConfig.java:74 | the filter runs before authorization on public paths too: an unparsable bearer token fails the request there |
| SecurityConfig.PublicPathWithoutHeaderAdmitted | src/main/java/com/example/produits/Config/SecurityConfig.java:71-72 | a public path with no header is admitted unauthenticated |
| SecurityConfig.ProtectedPathWithoutHeaderDenied | src/main/java/com/example/produits/Config/SecurityConfig.java:73 | any other path with no header is denied |
| ProductService.DuplicateMessage | src/main/java/com/example/produits/Service/ProductService.java:62 | the message is the fixed French prefix, then the code's text (`null` for no code) verbatim, then the fixed suffix, so the code can be read back from it |
| ProductService.ConvertToDto | src/main/java/com/example/produits/Service/ProductService.java:22-30 | the DTO never carries a code |
| ProductService.ConvertToProduct | src/main/java/com/example/produits/Service/ProductService.java:32-40 | the entity never carries a code |
| ProductService.ConversionsRoundTrip | src/main/java/com/example/produits/Service/ProductService.java:22-40 | both round trips preserve id, name, description, price and availability, and lose the code |
| ProductService.CodeTaken | src/main/java/com/example/produits/Service/ProductService.java:60-61 | the code counts as free iff no stored entity holds it (a null code matches null codes); the lookup raises iff several do |
| ProductService.Save | src/main/java/com/example/produits/Service/ProductService.java:67 | exactly one entry is written: under the entity's id when it has one, otherwise under the fresh id; the saved entity is the input with that id, and every other entry is unchanged |
| ProductService.GetAllProducts | src/main/java/com/example/produits/Service/ProductService.java:42-44 | one DTO per stored product, in listing order, as many as the table holds |
| ProductService.GetProductById | src/main/java/com/example/produits/Service/ProductService.java:46-50 | succeeds iff the id is stored, returning its id, name, description, price and availability; otherwise raises "Product not found" |
| ProductService.DeleteProductById | src/main/java/com/example/produits/Service/ProductService.java:52-56 | an absent id raises "Product not found" and deletes nothing; a present id removes exactly that key, every other entry unchanged |
| ProductService.CreateProduct | src/main/java/com/example/produits/Service/ProductService.java:58-70 | a taken code raises the French IllegalArgumentException with no save; otherwise exactly one save, and the result is the saved entity converted back |
| ProductService.DeleteThenGetNotFound | src/main/java/com/example/produits/Service/ProductService.java:52-56 | after deleting a stored id, fetching it raises "Product not found" |
| ProductService.CreateThenGet | src/main/java/com/example/produits/Service/ProductService.java:58-70 | fetching the id a creation returns yields the DTO it returned |
| ProductService.CreatedCodeNotRecorded | src/main/java/com/example/produits/Service/ProductService.java:65-67 | a product created through the service, with or without an id, does not make its code count as taken |
| GlobalExceptionHandler.FieldMap | src/main/java/com/example/produits/Config/GlobalExceptionHandler.java:28-31 | the map's keys are the erroneous fields, and each maps to the message of that field's last error |
| GlobalExceptionHandler.HandleIllegalArgument | src/main/java/com/example/produits/Config/GlobalExceptionHandler.java:19-25 | 409 iff the message contains "code already exist", else 400, with the message as body |
| GlobalExceptionHandler.HandleValidation | src/main/java/com/example/produits/Config/GlobalExceptionHandler.java:26-33 | 400 with a field-to-message map over exactly the erroneous fields, each mapped to the message of its last error |
| GlobalExceptionHandler.HandleRuntime | src/main/java/com/example/produits/Config/GlobalExceptionHandler.java:34-40 | 404 with the message iff it equals "Product not found", else 500 with "Servor Error : " + message |
| GlobalExceptionHandler.Handle | src/main/java/com/example/produits/Config/GlobalExceptionHandler.java:19-40 | total over exceptions; 409 only for an IllegalArgumentException containing the phrase; 404 only for "Product not found"; 500 only for other runtime exceptions |
| GlobalExceptionHandler.DuplicateMessagePhrase | src/main/java/com/example/produits/Service/ProductService.java:62 | the duplicate-code message contains "code already exist" iff the code's text does |
| GlobalExceptionHandler.DuplicateCreateStatus | src/main/java/com/example/produits/Config/GlobalExceptionHandler.java:21-24 | a duplicate creation answers with the French message, 409 only when the code itself contains the phrase, 400 otherwise |
| GlobalExceptionHandler.DuplicateOfPlainCodeIsBadRequest | src/test/java/com/example/produits/ProductServiceUnitTests.java:88-103 | duplicate creation with code "ART_096", or with no code, answers 400, not 409 |
| GlobalExceptionHandler.NotFoundIs404 | src/main/java/com/example/produits/Config/GlobalExceptionHandler.java:36-37 | the "Product not found" errors of get and delete answer 404 with that message |

## Left out

- Cryptography and wire format: the HMAC-SHA256 computation and the JWS compact
  serialization are uninterpreted parameters. The key-to-bytes conversion of
  `getSignKey` is omitted (the key is its text).
- JwtUtils.ForeignKeyRejected: assumes the two keys' signatures over the issued
  claims differ. This is not derived from HMAC's properties, since the MAC is
  uninterpreted.
- JwtUtils.TamperedClaimsRejected: likewise assumes the altered claims' signature
  differs from the original's.
- JwtUtils.TamperedSignatureRejected: covers a token whose parsed signature differs
  from the one issued. A change to the serialized text is covered only when the
  parser still reads it, since the codec is uninterpreted.
- Checks hidden in the token library's parser are not modelled: its own rejection
  of expired tokens, algorithm-header checks and clock skew. Parsing here fails
  only on an unreadable token or a signature mismatch.
- Time precision: the library's truncation of dates to whole seconds is not
  modelled. One integer unit is used, and the clock readings are parameters.
- The Java 64-bit signed range applies to clock readings and the time-to-live
  (`JwtUtils.Long`). Only the expiry sum can overflow, and it wraps.
- User lookup: `CustomUserDetailsService` is not part of this model. It is an
  arbitrary function that may fail, and a failure stands for its not-found
  exception.
- `extractUsername` is private in the source yet called by the filter. The model
  treats it as accessible.
- WebAuthenticationDetails (request address and session), attached at
  JwtFilter.java:78, are opaque request metadata and are not modelled.
- The BCrypt password encoder, the AuthenticationManager, CORS and CSRF settings
  are framework wiring. The anonymous authentication that Spring installs after
  the filter is read as "not authenticated".
- Path matching: `"/x/**"` is modelled as `/x` itself or any path starting with
  `/x/`. Path normalisation and servlet-path handling are not modelled.
- Exceptions thrown by the filter occur before the controller layer, so
  `GlobalExceptionHandler` does not see them. The model reports them as
  `Aborted` or `FilterFailed` without an HTTP status.
- `updateProduct` is an empty stub in the source. The controller calls a
  two-argument overload that does not exist. Neither is modelled.
- ProductController and ProductRepository are thin delegation; the repository is
  the `Store` map. JPA merge semantics are simplified: saving an entity with an id
  overwrites that key. Id generation is a fresh id supplied by the caller.
- findAll order is a listing of the stored ids passed to `GetAllProducts`.
- A derived query that finds several rows raises a data-access exception. Its
  wording is a placeholder; only the fact that it is not "Product not found"
  matters to the handler.
- A null `name`, `description`, `price` or `available` is not distinguished. The
  conversions copy these fields unchanged, and price is a `real` because it is
  only copied. Only `id` and `code` are nullable.
- Bean-validation annotations on ProductDTO are not modelled: only the framework
  enforces them, and the controller does not request validation.
- A `null` exception message, which would make a handler itself throw, is not
  modelled: every message is a string.
- Outbound calls to the routing service (OSRMClient, DistanceController) are
  network I/O over floating-point coordinates and are not modelled.
- Java strings compare UTF-16 code units; the model compares `char`s.

=== FILE: exception_handler.dfy ===
/** `GlobalExceptionHandler`: the three `@ExceptionHandler` methods as one
    total map from an exception to the HTTP response it produces. */
module GlobalExceptionHandler {
  import opened Wrappers
  import opened Strings
  import opened Exceptions
  import opened ProductService

  const BAD_REQUEST: int := 400
  const NOT_FOUND: int := 404
  const CONFLICT: int := 409
  const INTERNAL_SERVER_ERROR: int := 500

  /** The phrase that marks a duplicate-code rejection as a conflict. */
  const ConflictPhrase: string := "code already exist"

  /** The prefix of the body of an unexpected runtime error, as spelled in
      the handler. */
  const ServerErrorPrefix: string := "Servor Error : "

  datatype Body = Text(text: string) | FieldMessages(messages: map<string, string>)

  datatype Response = Response(status: int, body: Body)

  /** The field-to-message map built by `put` in error order, so a field
      named twice keeps its last message. */
  function FieldMap(errors: seq<FieldError>): (m: map<string, string>)
    ensures m.Keys == set e | e in errors :: e.field
    ensures forall f | f in m :: exists i | 0 <= i < |errors| ::
      && errors[i] == FieldError(f, m[f])
      && forall j | i < j < |errors| :: errors[j].field != f
  {
    if |errors| == 0 then map[]
    else
      var init := errors[..|errors| - 1];
      var last := errors[|errors| - 1];
      assert errors == init + [last];
      FieldMap(init)[last.field := last.defaultMessage]
  }

  /** `handleIllegalArgumentException` */
  function HandleIllegalArgument(message: string): (r: Response)
    ensures r.body == Text(message)
    ensures r.status == CONFLICT <==> Contains(message, ConflictPhrase)
    ensures r.status == BAD_REQUEST <==> !Contains(message, ConflictPhrase)
  {
    if Contains(message, ConflictPhrase) then Response(CONFLICT, Text(message))
    else Response(BAD_REQUEST, Text(message))
  }

  /** `handleValidationExceptions` */
  function HandleValidation(errors: seq<FieldError>): (r: Response)
    ensures r.status == BAD_REQUEST
    ensures r.body.FieldMessages? && r.body.messages.Keys == set e | e in errors :: e.field
    ensures forall f | f in r.body.messages :: exists i | 0 <= i < |errors| ::
      && errors[i] == FieldError(f, r.body.messages[f])
      && forall j | i < j < |errors| :: errors[j].field != f
  {
    Response(BAD_REQUEST, FieldMessages(FieldMap(errors)))
  }

  /** `handleRuntimeException` */
  function HandleRuntime(message: string): (r: Response)
    ensures r.status == NOT_FOUND <==> message == NotFoundMessage
    ensures r.status == NOT_FOUND ==> r.body == Text(message)
    ensures r.status != NOT_FOUND ==>
      r == Response(INTERNAL_SERVER_ERROR, Text(ServerErrorPrefix + message))
  {
    if message == NotFoundMessage then Response(NOT_FOUND, Text(message))
    else Response(INTERNAL_SERVER_ERROR, Text(ServerErrorPrefix + message))
  }

  /** The handler Spring selects: the most specific exception class wins,
      so `IllegalArgumentException` never reaches the runtime handler. */
  function Handle(ex: Exception): (r: Response)
    ensures r.status in {BAD_REQUEST, NOT_FOUND, CONFLICT, INTERNAL_SERVER_ERROR}
    ensures r.status == CONFLICT <==> ex.IllegalArgument? && Contains(ex.message, ConflictPhrase)
    ensures r.status == NOT_FOUND <==> ex == Runtime(NotFoundMessage)
    ensures r.status == INTERNAL_SERVER_ERROR <==> ex.Runtime? && ex.message != NotFoundMessage
  {
    match ex
    case IllegalArgument(message) => HandleIllegalArgument(message)
    case MethodArgumentNotValid(errors) => HandleValidation(errors)
    case Runtime(message) => HandleRuntime(message)
  }

  /** The duplicate-code message holds the conflict phrase exactly when the
      code itself does: the fixed text around the code cannot contribute. */
  lemma DuplicateMessagePhrase(code: Option<string>)
    ensures Contains(DuplicateMessage(code), ConflictPhrase) <==> Contains(CodeText(code), ConflictPhrase)
  {
    var pre := DuplicatePrefix;
    var post := DuplicateSuffix;
    assert DuplicateMessage(code) == pre + CodeText(code) + post;
    if Contains(CodeText(code), ConflictPhrase) {
      ContainsInMiddle(pre, CodeText(code), post, ConflictPhrase);
    }
    if Contains(DuplicateMessage(code), ConflictPhrase) {
      assert '\'' !in ConflictPhrase;
      AbsentFirstCharacter(pre[..|pre| - 1], ConflictPhrase);
      assert !Contains(post[1..], ConflictPhrase) by {
        assert |post[1..]| < |ConflictPhrase|;
      }
      ContainsOnlyInMiddle(pre, CodeText(code), post, ConflictPhrase);
    }
  }

  /** A duplicate create answers 409 only when the code itself contains the
      conflict phrase; for every other code, the null code included, it
      answers 400 with the French message as body. */
  lemma DuplicateCreateStatus(store: Store, dto: ProductDto, freshId: int)
    requires freshId !in store
    requires CodeTaken(store, dto.code) == Success(true)
    ensures var r := Handle(CreateProduct(store, dto, freshId).error);
      && r.body == Text(DuplicateMessage(dto.code))
      && (r.status == CONFLICT <==> Contains(CodeText(dto.code), ConflictPhrase))
      && (r.status == BAD_REQUEST <==> !Contains(CodeText(dto.code), ConflictPhrase))
  {
    DuplicateMessagePhrase(dto.code);
  }

  /** The duplicate code of the service's unit test, and the null code,
      both answer 400, not 409. */
  lemma DuplicateOfPlainCodeIsBadRequest(store: Store, dto: ProductDto, freshId: int)
    requires freshId !in store
    requires dto.code == Some("ART_096") || dto.code.None?
    requires CodeTaken(store, dto.code) == Success(true)
    ensures Handle(CreateProduct(store, dto, freshId).error).status == BAD_REQUEST
  {
    DuplicateCreateStatus(store, dto, freshId);
    assert |CodeText(dto.code)| < |ConflictPhrase|;
  }

  /** The "Product not found" errors of get and delete answer 404 with the
      message as body. */
  lemma NotFoundIs404(store: Store, id: int)
    requires id !in store
    ensures Handle(GetProductById(store, id).error) == Response(NOT_FOUND, Text("Product not found"))
    ensures Handle(DeleteProductById(store, id).error) == Response(NOT_FOUND, Text("Product not found"))
  {
  }
}

=== FILE: exceptions.dfy ===
/** The exceptions that reach the web layer, by the Java class the
    exception handler dispatches on. */
module Exceptions {

  /** One rejected field of a request body. */
  datatype FieldError = FieldError(field: string, defaultMessage: string)

  datatype Exception =
    | IllegalArgument(message: string)
    | MethodArgumentNotValid(fieldErrors: seq<FieldError>)
      /** Any other `RuntimeException`. */
    | Runtime(message: string)
}

=== FILE: jwt_filter.dfy ===
/** `JwtFilter.doFilterInternal` as one transition over the request's
    `Authorization` header and the current authentication context.

    The framework-held security context becomes an explicit input and output.
    Because the filter has no `try`/`catch`, an exception from subject
    extraction, user lookup or validation ends the request with an `Aborted`
    outcome and the rest of the chain never runs. A trace of the
    collaborator calls makes "what was consulted" observable. */
module JwtFilter {
  import opened Wrappers
  import opened Strings
  import opened JwtUtils

  /** Bearer scheme marker, case-sensitive and with its trailing space
      (section 2.1 of RFC 6750). */
  const BearerPrefix: string := "Bearer "

  /** `UsernamePasswordAuthenticationToken(principal, credentials, authorities)`.
      Credentials `None` is the `null` the filter passes. */
  datatype Authentication = Authentication(
    principal: UserDetails,
    credentials: Option<string>,
    authorities: seq<string>)

  /** The security context: `None` until some mechanism authenticates. */
  type Context = Option<Authentication>

  /** `loadUserByUsername`; `None` stands for its not-found exception. */
  type UserLookup = string -> Option<UserDetails>

  /** A collaborator call or context change made by one pass of the filter. */
  datatype Step =
    | ExtractSubject(token: string)
    | LoadUser(username: string)
    | Validate(token: string, user: UserDetails)
    | Install(auth: Authentication)
    | ContinueChain

  datatype GateError = TokenRejected(cause: JwtError) | UserNotFound(username: string)

  datatype Outcome =
    | Continued(context: Context, trace: seq<Step>)
    | Aborted(error: GateError, trace: seq<Step>)

  /** The token after the bearer marker, when the header carries one. */
  function BearerToken(header: Option<string>): (r: Option<string>)
    ensures r.Some? <==> header.Some? && StartsWith(header.value, BearerPrefix)
    ensures r.Some? ==> header.value == BearerPrefix + r.value
  {
    if header.Some? && StartsWith(header.value, BearerPrefix)
    then Some(header.value[|BearerPrefix|..])
    else None
  }

  /** The authentication the filter installs for a validated user. */
  function AuthenticationFor(user: UserDetails): Authentication {
    Authentication(user, None, user.authorities)
  }

  /** One pass of `doFilterInternal` at clock reading `now`. */
  function DoFilterInternal(jwt: Settings, loadUser: UserLookup, header: Option<string>,
                            context: Context, now: Long): (r: Outcome)
    ensures r.Continued? && r.context != context ==>
      context.None? && r.context.Some? && Install(r.context.value) in r.trace
    ensures context.Some? && r.Continued? ==> r.context == context
  {
    match BearerToken(header)
    case None => Continued(context, [ContinueChain])
    case Some(token) =>
      var extracted := [ExtractSubject(token)];
      match ExtractUsername(jwt, token)
      case Failure(e) => Aborted(TokenRejected(e), extracted)
      case Success(username) =>
        if username.None? || context.Some? then Continued(context, extracted + [ContinueChain])
        else
          var looked := extracted + [LoadUser(username.value)];
          match loadUser(username.value)
          case None => Aborted(UserNotFound(username.value), looked)
          case Some(user) =>
            var validated := looked + [Validate(token, user)];
            match ValidateToken(jwt, token, user, now)
            case Failure(e) => Aborted(TokenRejected(e), validated)
            case Success(false) => Continued(None, validated + [ContinueChain])
            case Success(true) =>
              var auth := AuthenticationFor(user);
              Continued(Some(auth), validated + [Install(auth), ContinueChain])
  }

  /** A header of the form `"Bearer " + t` yields exactly `t`. */
  lemma BearerPrefixStripped(token: string)
    ensures BearerToken(Some(BearerPrefix + token)) == Some(token)
  {
    assert (BearerPrefix + token)[..|BearerPrefix|] == BearerPrefix;
    assert (BearerPrefix + token)[|BearerPrefix|..] == token;
  }

  /** No header, or one without the exact bearer marker: nothing is
      extracted, looked up or validated, the context is unchanged and the
      chain continues. */
  lemma NoBearerNoWork(jwt: Settings, loadUser: UserLookup, header: Option<string>,
                       context: Context, now: Long)
    requires header.None? || !StartsWith(header.value, BearerPrefix)
    ensures DoFilterInternal(jwt, loadUser, header, context, now) == Continued(context, [ContinueChain])
  {
  }

  /** An authentication already in the context is never replaced, and no
      lookup or validation happens; extraction still runs, and the pass
      continues exactly when there is no bearer token or extraction
      succeeds. */
  lemma ExistingAuthenticationKept(jwt: Settings, loadUser: UserLookup, header: Option<string>,
                                   context: Context, now: Long)
    requires context.Some?
    ensures var r := DoFilterInternal(jwt, loadUser, header, context, now);
      && (r.Continued? ==> r.context == context)
      && (forall s | s in r.trace :: !s.LoadUser? && !s.Validate? && !s.Install?)
      && (r.Aborted? ==> r.error.TokenRejected? && r.trace == [ExtractSubject(BearerToken(header).value)])
      && (r.Continued? <==> BearerToken(header).None? || ExtractUsername(jwt, BearerToken(header).value).Success?)
      && (r.Aborted? ==> r.error == TokenRejected(ExtractUsername(jwt, BearerToken(header).value).error))
  {
  }

  /** A verified token without a subject authenticates nobody and raises
      nothing: the username guard skips lookup and validation and the
      chain continues with the context as it was. */
  lemma SubjectlessTokenPassesThrough(jwt: Settings, loadUser: UserLookup, token: string,
                                      context: Context, now: Long)
    requires ExtractUsername(jwt, token) == Success(None)
    ensures DoFilterInternal(jwt, loadUser, Some(BearerPrefix + token), context, now)
         == Continued(context, [ExtractSubject(token), ContinueChain])
  {
    BearerPrefixStripped(token);
  }

  /** The context becomes authenticated only for a token that validates
      against the user the subject resolves to; the principal is that user,
      the credentials are null and the authorities are the user's. */
  lemma AuthenticatesOnlyValidTokens(jwt: Settings, loadUser: UserLookup, header: Option<string>,
                                     now: Long)
    ensures var r := DoFilterInternal(jwt, loadUser, header, None, now);
      r.Continued? && r.context.Some? <==>
        && BearerToken(header).Some?
        && ExtractUsername(jwt, BearerToken(header).value).Success?
        && ExtractUsername(jwt, BearerToken(header).value).value.Some?
        && (var name := ExtractUsername(jwt, BearerToken(header).value).value.value;
            && loadUser(name).Some?
            && ValidateToken(jwt, BearerToken(header).value, loadUser(name).value, now) == Success(true)
            && r.context == Some(Authentication(loadUser(name).value, None, loadUser(name).value.authorities)))
  {
  }

  /** A token that validation refuses, whether it has expired or the
      lookup returned a user under another name, leaves the context
      unauthenticated and raises nothing. (The token library's parser,
      which rejects an expired token already at extraction, is not
      modelled; see "Left out" in README.md.) */
  lemma RefusedTokenStaysUnauthenticated(jwt: Settings, loadUser: UserLookup, token: string,
                                         name: string, user: UserDetails, now: Long)
    requires ExtractUsername(jwt, token) == Success(Some(name))
    requires loadUser(name) == Some(user)
    requires ValidateToken(jwt, token, user, now) == Success(false)
    ensures DoFilterInternal(jwt, loadUser, Some(BearerPrefix + token), None, now)
         == Continued(None, [ExtractSubject(token), LoadUser(name),
                             Validate(token, user), ContinueChain])
  {
    BearerPrefixStripped(token);
  }

  /** An exception from `validateToken` (a missing expiry, say) is not
      caught: the request aborts after the lookup, with that error. */
  lemma ValidationFailurePropagates(jwt: Settings, loadUser: UserLookup, token: string,
                                    name: string, user: UserDetails, now: Long)
    requires ExtractUsername(jwt, token) == Success(Some(name))
    requires loadUser(name) == Some(user)
    requires ValidateToken(jwt, token, user, now).Failure?
    ensures DoFilterInternal(jwt, loadUser, Some(BearerPrefix + token), None, now)
         == Aborted(TokenRejected(ValidateToken(jwt, token, user, now).error),
                    [ExtractSubject(token), LoadUser(name), Validate(token, user)])
  {
    BearerPrefixStripped(token);
  }

  /** Every pass that does not raise continues the chain exactly once, as
      its last step; a pass that raises never continues it. */
  lemma ChainContinuedOnceAtEnd(jwt: Settings, loadUser: UserLookup, header: Option<string>,
                                context: Context, now: Long)
    ensures var r := DoFilterInternal(jwt, loadUser, header, context, now);
      match r
      case Continued(_, trace) =>
        |trace| > 0 && trace[|trace| - 1] == ContinueChain
        && forall i | 0 <= i < |trace| - 1 :: trace[i] != ContinueChain
      case Aborted(_, trace) => ContinueChain !in trace
  {
  }

  /** Subject extraction and user lookup failures propagate: the request
      is aborted and the chain is not continued. */
  lemma FailuresPropagate(jwt: Settings, loadUser: UserLookup, token: string, now: Long)
    ensures var r := DoFilterInternal(jwt, loadUser, Some(BearerPrefix + token), None, now);
      && (ExtractUsername(jwt, token).Failure? ==>
            r == Aborted(TokenRejected(ExtractUsername(jwt, token).error), [ExtractSubject(token)]))
      && (ExtractUsername(jwt, token).Success?
          && ExtractUsername(jwt, token).value.Some?
          && loadUser(ExtractUsername(jwt, token).value.value).None? ==>
            r.Aborted? && r.error == UserNotFound(ExtractUsername(jwt, token).value.value))
  {
    BearerPrefixStripped(token);
  }

  /** A bearer token signed under another key does not leave the request
      unauthenticated: subject extraction raises and the request aborts
      before the chain continues. */
  lemma ForgedTokenAborts(jwt: Settings, forger: Settings, loadUser: UserLookup, username: string,
                          firstReading: Long, secondReading: Long, context: Context, now: Long)
    requires forger.lib == jwt.lib && Sound(jwt.lib)
    requires var c := IssuedClaims(forger, map[], username, firstReading, secondReading);
      jwt.lib.hs256(jwt.secretKey, c) != forger.lib.hs256(forger.secretKey, c)
    ensures var token := GenerateToken(forger, username, firstReading, secondReading);
      DoFilterInternal(jwt, loadUser, Some(BearerPrefix + token), context, now)
        == Aborted(TokenRejected(BadSignature), [ExtractSubject(token)])
  {
    var token := GenerateToken(forger, username, firstReading, secondReading);
    ForeignKeyRejected(forger, jwt, username, firstReading, secondReading,
                       UserDetails(username, []), now);
    BearerPrefixStripped(token);
  }
}

=== FILE: jwt_utils.dfy ===
/** Issue and validation of HS256-signed JSON Web Tokens (RFC 7519 claims
    `sub`, `iat` and `exp`; HMAC with SHA-256 as in section 3.2 of RFC 7518).

    The HMAC and the JWS compact serialization belong to a foreign library;
    they are the uninterpreted fields of `JwsLibrary`. The clock is an explicit
    parameter: `createToken` reads it twice, `isTokenExpired` once. */
module JwtUtils {
  import opened Wrappers

  const LONG_MIN: int := -0x8000_0000_0000_0000
  const LONG_MAX: int := 0x7FFF_FFFF_FFFF_FFFF
  const LONG_MODULUS: int := 0x1_0000_0000_0000_0000

  /** A Java `long`: clock readings in milliseconds and the configured
      time-to-live. */
  type Long = x: int | LONG_MIN <= x <= LONG_MAX

  /** Java's `long` addition, which wraps around modulo 2^64. */
  function AddLong(a: Long, b: Long): (r: Long)
    ensures (a + b - r) % LONG_MODULUS == 0
    ensures LONG_MIN <= a + b <= LONG_MAX ==> r == a + b
  {
    var s := a + b;
    if s > LONG_MAX then s - LONG_MODULUS
    else if s < LONG_MIN then s + LONG_MODULUS
    else s
  }

  type Key = string
  type Signature = seq<bv8>

  /** The registered claims read by the service, plus the custom claims.
      A claim absent from a parsed token reads as `None` (Java `null`). */
  datatype Claims = Claims(
    subject: Option<string>,
    issuedAt: Option<Long>,
    expiration: Option<Long>,
    custom: map<string, string>)

  /** Names the builder keeps in dedicated slots rather than in `custom`. */
  const RegisteredNames: set<string> := {"sub", "iat", "exp"}

  /** A signed token before (or after) compact serialization. */
  datatype Jws = Jws(claims: Claims, signature: Signature)

  /** The signing library: the HS256 MAC over a claim set and the compact
      serialization with its parser. */
  datatype JwsLibrary = JwsLibrary(
    hs256: (Key, Claims) -> Signature,
    compact: Jws -> string,
    parse: string -> Option<Jws>)

  /** The parser reads back every token the serializer writes. */
  ghost predicate Sound(lib: JwsLibrary) {
    forall j: Jws {:trigger lib.compact(j)} :: lib.parse(lib.compact(j)) == Some(j)
  }

  /** The `@Component`: secret key text, time-to-live and library. */
  datatype Settings = Settings(secretKey: Key, expirationTime: Long, lib: JwsLibrary)

  /** What the user-details service returns. */
  datatype UserDetails = UserDetails(username: string, authorities: seq<string>)

  /** Exceptions that escape `JwtUtils`: the parser's rejections and the
      `NullPointerException` raised on a missing `sub` or `exp`. */
  datatype JwtError = Malformed | BadSignature | NullPointer

  /** The claim set `createToken` signs, from its two clock readings. */
  function IssuedClaims(u: Settings, claims: map<string, string>, subject: string,
                        firstReading: Long, secondReading: Long): Claims
  {
    Claims(Some(subject), Some(firstReading),
           Some(AddLong(secondReading, u.expirationTime)),
           claims - RegisteredNames)
  }

  /** `createToken`: set the claims, then subject, issued-at and expiry,
      sign with the secret key, serialize. */
  function CreateToken(u: Settings, claims: map<string, string>, subject: string,
                       firstReading: Long, secondReading: Long): (token: string)
    ensures Sound(u.lib) ==>
      u.lib.parse(token) == Some(Jws(IssuedClaims(u, claims, subject, firstReading, secondReading),
        u.lib.hs256(u.secretKey, IssuedClaims(u, claims, subject, firstReading, secondReading))))
  {
    var c := IssuedClaims(u, claims, subject, firstReading, secondReading);
    u.lib.compact(Jws(c, u.lib.hs256(u.secretKey, c)))
  }

  /** `generateToken`: a token whose only custom claims are none. */
  function GenerateToken(u: Settings, username: string,
                         firstReading: Long, secondReading: Long): (token: string)
    ensures Sound(u.lib) ==>
      && u.lib.parse(token).Some?
      && u.lib.parse(token).value.claims.subject == Some(username)
      && u.lib.parse(token).value.claims.custom == map[]
  {
    CreateToken(u, map[], username, firstReading, secondReading)
  }

  /** `extractAllClaims`: parse, and accept only a signature that the
      configured key reproduces over the parsed claims. */
  function ExtractAllClaims(u: Settings, token: string): (r: Result<Claims, JwtError>)
    ensures r.Success? <==>
      && u.lib.parse(token).Some?
      && u.lib.parse(token).value.signature == u.lib.hs256(u.secretKey, u.lib.parse(token).value.claims)
    ensures r.Success? ==> u.lib.parse(token).value.claims == r.value
    ensures r.Failure? ==>
      (u.lib.parse(token).None? <==> r.error == Malformed) && r.error != NullPointer
  {
    match u.lib.parse(token)
    case None => Failure(Malformed)
    case Some(jws) =>
      if jws.signature == u.lib.hs256(u.secretKey, jws.claims) then Success(jws.claims)
      else Failure(BadSignature)
  }

  /** `extractUsername`: the `sub` claim, `None` when the token has none. */
  function ExtractUsername(u: Settings, token: string): (r: Result<Option<string>, JwtError>)
    ensures r.Success? <==> ExtractAllClaims(u, token).Success?
    ensures r.Success? ==> r.value == ExtractAllClaims(u, token).value.subject
    ensures r.Failure? ==> r.error == ExtractAllClaims(u, token).error
  {
    var c :- ExtractAllClaims(u, token);
    Success(c.subject)
  }

  /** `extractExpirationDate` */
  function ExtractExpirationDate(u: Settings, token: string): (r: Result<Option<Long>, JwtError>)
    ensures r.Success? <==> ExtractAllClaims(u, token).Success?
    ensures r.Success? ==> r.value == ExtractAllClaims(u, token).value.expiration
    ensures r.Failure? ==> r.error == ExtractAllClaims(u, token).error
  {
    var c :- ExtractAllClaims(u, token);
    Success(c.expiration)
  }

  /** `isTokenExpired`: `exp.before(now)`, so strictly earlier. */
  function IsTokenExpired(u: Settings, token: string, now: Long): (r: Result<bool, JwtError>)
    ensures r.Success? <==>
      ExtractAllClaims(u, token).Success? && ExtractAllClaims(u, token).value.expiration.Some?
    ensures r.Success? ==> (r.value <==> ExtractAllClaims(u, token).value.expiration.value < now)
  {
    var exp :- ExtractExpirationDate(u, token);
    if exp.None? then Failure(NullPointer) else Success(exp.value < now)
  }

  /** The validity judgement on verified claims. */
  ghost predicate Acceptable(c: Claims, user: UserDetails, now: Long) {
    c.subject == Some(user.username) && c.expiration.Some? && !(c.expiration.value < now)
  }

  /** `validateToken`: the subject must equal the user's name and the token
      must not be expired. Parse failures and missing claims raise. */
  function ValidateToken(u: Settings, token: string, user: UserDetails, now: Long)
    : (r: Result<bool, JwtError>)
    ensures r == Success(true) <==>
      ExtractAllClaims(u, token).Success? && Acceptable(ExtractAllClaims(u, token).value, user, now)
    ensures r.Failure? <==>
      || ExtractAllClaims(u, token).Failure?
      || ExtractAllClaims(u, token).value.subject.None?
      || (ExtractAllClaims(u, token).value.subject == Some(user.username)
          && ExtractAllClaims(u, token).value.expiration.None?)
    ensures r.Failure? && ExtractAllClaims(u, token).Success? ==> r.error == NullPointer
  {
    var username :- ExtractUsername(u, token);
    if username.None? then Failure(NullPointer)
    else if username.value != user.username then Success(false)
    else
      var expired :- IsTokenExpired(u, token, now);
      Success(!expired)
  }

  /** Round trip: the parser recovers exactly the claims `createToken`
      signed, with the custom claims minus the registered names. */
  lemma CreateTokenRoundTrip(u: Settings, claims: map<string, string>, subject: string,
                             firstReading: Long, secondReading: Long)
    requires Sound(u.lib)
    ensures ExtractAllClaims(u, CreateToken(u, claims, subject, firstReading, secondReading))
         == Success(IssuedClaims(u, claims, subject, firstReading, secondReading))
    ensures IssuedClaims(u, claims, subject, firstReading, secondReading).custom.Keys
         == claims.Keys - {"sub", "iat", "exp"}
  {
    var c := IssuedClaims(u, claims, subject, firstReading, secondReading);
    assert u.lib.parse(u.lib.compact(Jws(c, u.lib.hs256(u.secretKey, c)))) == Some(Jws(c, u.lib.hs256(u.secretKey, c)));
  }

  /** `generateToken(u)`: subject `u`, no custom claim, `iat` the first clock
      reading, `exp` the second reading plus the time-to-live. */
  lemma GenerateTokenClaims(u: Settings, username: string, firstReading: Long, secondReading: Long)
    requires Sound(u.lib)
    ensures var r := ExtractAllClaims(u, GenerateToken(u, username, firstReading, secondReading));
      && r.Success?
      && r.value.subject == Some(username)
      && r.value.custom == map[]
      && r.value.issuedAt == Some(firstReading)
      && r.value.expiration == Some(AddLong(secondReading, u.expirationTime))
  {
    CreateTokenRoundTrip(u, map[], username, firstReading, secondReading);
  }

  /** With a clock that does not run backwards and no `long` overflow, the
      token lives at least the configured time-to-live. */
  lemma IssueWindow(u: Settings, username: string, firstReading: Long, secondReading: Long)
    requires firstReading <= secondReading
    requires secondReading + u.expirationTime <= LONG_MAX
    ensures var c := IssuedClaims(u, map[], username, firstReading, secondReading);
      c.expiration.value >= c.issuedAt.value + u.expirationTime
  {
  }

  /** A token signed under another key fails to parse under this one, and
      `validateToken` then raises rather than answering `false`. */
  lemma ForeignKeyRejected(issuer: Settings, checker: Settings, username: string,
                           firstReading: Long, secondReading: Long,
                           user: UserDetails, now: Long)
    requires issuer.lib == checker.lib && Sound(issuer.lib)
    requires var c := IssuedClaims(issuer, map[], username, firstReading, secondReading);
      checker.lib.hs256(checker.secretKey, c) != issuer.lib.hs256(issuer.secretKey, c)
    ensures var token := GenerateToken(issuer, username, firstReading, secondReading);
      && ExtractAllClaims(checker, token) == Failure(BadSignature)
      && ValidateToken(checker, token, user, now) == Failure(BadSignature)
  {
    var c := IssuedClaims(issuer, map[], username, firstReading, secondReading);
    assert issuer.lib.parse(issuer.lib.compact(Jws(c, issuer.lib.hs256(issuer.secretKey, c))))
        == Some(Jws(c, issuer.lib.hs256(issuer.secretKey, c)));
  }

  /** Claims altered after signing no longer match the signature. */
  lemma TamperedClaimsRejected(u: Settings, signed: Claims, altered: Claims,
                               user: UserDetails, now: Long)
    requires Sound(u.lib)
    requires u.lib.hs256(u.secretKey, altered) != u.lib.hs256(u.secretKey, signed)
    ensures var token := u.lib.compact(Jws(altered, u.lib.hs256(u.secretKey, signed)));
      && ExtractAllClaims(u, token) == Failure(BadSignature)
      && ValidateToken(u, token, user, now) == Failure(BadSignature)
  {
    var j := Jws(altered, u.lib.hs256(u.secretKey, signed));
    assert u.lib.parse(u.lib.compact(j)) == Some(j);
  }

  /** A signature altered after signing no longer matches the claims. */
  lemma TamperedSignatureRejected(u: Settings, signed: Claims, altered: Signature,
                                  user: UserDetails, now: Long)
    requires Sound(u.lib)
    requires altered != u.lib.hs256(u.secretKey, signed)
    ensures var token := u.lib.compact(Jws(signed, altered));
      && ExtractAllClaims(u, token) == Failure(BadSignature)
      && ValidateToken(u, token, user, now) == Failure(BadSignature)
  {
    var j := Jws(signed, altered);
    assert u.lib.parse(u.lib.compact(j)) == Some(j);
  }

  /** The expiry test is strict: at `now == exp` the token is still valid. */
  lemma ExpiryBoundaryIsStrict(u: Settings, token: string, user: UserDetails, now: Long)
    requires ExtractAllClaims(u, token).Success?
    requires ExtractAllClaims(u, token).value.subject == Some(user.username)
    requires ExtractAllClaims(u, token).value.expiration == Some(now)
    ensures ValidateToken(u, token, user, now) == Success(true)
  {
  }

  /** A token issued for `username` validates against that user at every
      instant up to its stamped expiry, and `validateToken` itself refuses
      (does not raise) after. In the running program the token library's
      parser already rejects an expired token; that check is not modelled
      (see "Left out" in README.md). */
  lemma IssuedTokenValidUntilExpiry(u: Settings, username: string, authorities: seq<string>,
                                    firstReading: Long, secondReading: Long, now: Long)
    requires Sound(u.lib)
    ensures var token := GenerateToken(u, username, firstReading, secondReading);
      var exp := AddLong(secondReading, u.expirationTime);
      ValidateToken(u, token, UserDetails(username, authorities), now) == Success(now <= exp)
  {
    GenerateTokenClaims(u, username, firstReading, secondReading);
  }

  /** A token issued for one user never validates for another, at any time. */
  lemma OtherUserNeverValidates(u: Settings, username: string, other: UserDetails,
                                firstReading: Long, secondReading: Long, now: Long)
    requires Sound(u.lib)
    requires other.username != username
    ensures ValidateToken(u, GenerateToken(u, username, firstReading, secondReading), other, now)
         == Success(false)
  {
    GenerateTokenClaims(u, username, firstReading, secondReading);
  }

  /** A time-to-live large enough to overflow the `long` sum stamps an
      expiry before the issue instant, so the token is refused at once. */
  lemma OverflowingLifetimeExpiresAtIssue(u: Settings, username: string, authorities: seq<string>,
                                          firstReading: Long, secondReading: Long)
    requires Sound(u.lib)
    requires secondReading + u.expirationTime > LONG_MAX
    ensures AddLong(secondReading, u.expirationTime) < secondReading
    ensures ValidateToken(u, GenerateToken(u, username, firstReading, secondReading),
                          UserDetails(username, authorities), secondReading) == Success(false)
  {
    IssuedTokenValidUntilExpiry(u, username, authorities, firstReading, secondReading, secondReading);
  }
}

=== FILE: product_service.dfy ===
/** `ProductService` over a repository modelled as a finite map from id to
    stored entity. Thrown exceptions become `Failure` results; the
    repository's identifier generator is an explicit fresh id. */
module ProductService {
  import opened Wrappers
  import opened Exceptions

  /** A `Double` price; it is only ever copied. */
  type Price = real

  /** The JPA entity. `id` and `code` are `None` when null. */
  datatype Product = Product(
    id: Option<int>, name: string, description: string,
    price: Price, available: bool, code: Option<string>)

  /** `ProductDTO`, the same fields as seen by the web layer. */
  datatype ProductDto = ProductDto(
    id: Option<int>, name: string, description: string,
    price: Price, available: bool, code: Option<string>)

  /** The table: every stored entity carries its own key as its id. */
  type Store = s: map<int, Product> | forall k | k in s :: s[k].id == Some(k)
    witness map[]

  const NotFoundMessage: string := "Product not found"

  const DuplicatePrefix: string := "Un produit avec le code '"
  const DuplicateSuffix: string := "' existe déjà."

  /** The message of the duplicate-code rejection: the code, quoted
      verbatim between fixed French text, can be read back from it. */
  function DuplicateMessage(code: Option<string>): (m: string)
    ensures |m| == |DuplicatePrefix| + |CodeText(code)| + |DuplicateSuffix|
    ensures m[..|DuplicatePrefix|] == DuplicatePrefix
    ensures m[|DuplicatePrefix|..|m| - |DuplicateSuffix|] == CodeText(code)
    ensures m[|m| - |DuplicateSuffix|..] == DuplicateSuffix
  {
    DuplicatePrefix + CodeText(code) + DuplicateSuffix
  }

  /** String concatenation renders a null code as `null`. */
  function CodeText(code: Option<string>): string {
    if code.Some? then code.value else "null"
  }

  /** Stands for the data-access layer's exception when a derived query
      expected one row and found several; its wording is not modelled. */
  const NonUniqueResultMessage: string := "query did not return a unique result"

  /** `convertToDto`: every field but `code`, which stays null. */
  function ConvertToDto(p: Product): (d: ProductDto)
    ensures d.code.None?
  {
    ProductDto(p.id, p.name, p.description, p.price, p.available, None)
  }

  /** `convertToProduct`: every field but `code`, which stays null. */
  function ConvertToProduct(d: ProductDto): (p: Product)
    ensures p.code.None?
  {
    Product(d.id, d.name, d.description, d.price, d.available, None)
  }

  /** Both conversions keep everything but the code. */
  lemma ConversionsRoundTrip(p: Product, d: ProductDto)
    ensures ConvertToProduct(ConvertToDto(p)) == p.(code := None)
    ensures ConvertToDto(ConvertToProduct(d)) == d.(code := None)
  {
  }

  /** The stored ids whose entity has the given code; a null code selects
      the entities whose code is null, as a derived query does. */
  function IdsWithCode(store: Store, code: Option<string>): set<int> {
    set k | k in store && store[k].code == code
  }

  /** `findByCode(code).isPresent()`. A derived query that finds more than
      one row raises instead of answering. */
  function CodeTaken(store: Store, code: Option<string>): (r: Result<bool, Exception>)
    ensures r == Success(false) <==> forall k | k in store :: store[k].code != code
    ensures r.Failure? <==> |IdsWithCode(store, code)| > 1
    ensures r.Failure? ==> r.error.Runtime?
  {
    var ids := IdsWithCode(store, code);
    if ids == {} then
      assert forall k | k in store :: store[k].code != code by {
        forall k | k in store ensures store[k].code != code {
          assert k !in ids;
        }
      }
      Success(false)
    else
      CodeHolderExists(store, code);
      if |ids| == 1 then Success(true)
      else Failure(Runtime(NonUniqueResultMessage))
  }

  /** A non-empty match set has a member. */
  lemma CodeHolderExists(store: Store, code: Option<string>)
    requires IdsWithCode(store, code) != {}
    ensures exists k | k in store :: store[k].code == code
  {
    var ids := IdsWithCode(store, code);
    if forall k :: k !in ids {
      assert false;
    }
    var k :| k in ids;
    assert k in store && store[k].code == code;
  }

  datatype Saved = Saved(store: Store, entity: Product)

  /** `save`: an entity without id is inserted under the generator's next
      id; one with an id replaces whatever is stored under that id. */
  function Save(store: Store, p: Product, freshId: int): (s: Saved)
    requires freshId !in store
    ensures s.entity.id.Some? && s.store.Keys == store.Keys + {s.entity.id.value}
    ensures s.store[s.entity.id.value] == s.entity
    ensures s.entity == p.(id := s.entity.id)
    ensures p.id.Some? ==> s.entity == p
    ensures p.id.None? ==> s.entity.id == Some(freshId)
    ensures forall k | k in store && Some(k) != s.entity.id :: s.store[k] == store[k]
  {
    match p.id
    case Some(k) => Saved(store[k := p], p)
    case None =>
      var e := p.(id := Some(freshId));
      Saved(store[freshId := e], e)
  }

  /** `getAllProducts`: `findAll` lists the stored ids in the order `order`
      (the database's order, which the model leaves open), and each entity
      is converted. */
  ghost predicate Enumerates(order: seq<int>, store: Store) {
    && (forall i | 0 <= i < |order| :: order[i] in store)
    && (forall k | k in store :: k in order)
    && (forall i, j | 0 <= i < j < |order| :: order[i] != order[j])
  }

  method GetAllProducts(store: Store, order: seq<int>) returns (dtos: seq<ProductDto>)
    requires Enumerates(order, store)
    ensures |dtos| == |order| == |store|
    ensures forall i | 0 <= i < |dtos| :: dtos[i] == ConvertToDto(store[order[i]])
    ensures forall k | k in store :: exists i | 0 <= i < |dtos| :: dtos[i] == ConvertToDto(store[k])
  {
    dtos := [];
    var n := 0;
    while n < |order|
      invariant 0 <= n <= |order|
      invariant |dtos| == n
      invariant forall i | 0 <= i < n :: dtos[i] == ConvertToDto(store[order[i]])
    {
      dtos := dtos + [ConvertToDto(store[order[n]])];
      n := n + 1;
    }
    EnumerationLength(order, store);
    forall k | k in store
      ensures exists i | 0 <= i < |dtos| :: dtos[i] == ConvertToDto(store[k])
    {
      var i :| 0 <= i < |order| && order[i] == k;
      assert dtos[i] == ConvertToDto(store[k]);
    }
  }

  /** A repetition-free listing of the keys is as long as the table. */
  lemma EnumerationLength(order: seq<int>, store: Store)
    requires Enumerates(order, store)
    ensures |order| == |store|
  {
    var elems := set i | i in order;
    forall k | k in store ensures k in elems { assert k in order; }
    assert elems == store.Keys;
    DistinctLength(order);
  }

  lemma {:induction false} DistinctLength(s: seq<int>)
    requires forall i, j | 0 <= i < j < |s| :: s[i] != s[j]
    ensures |set x | x in s| == |s|
  {
    if |s| > 0 {
      var rest := s[1..];
      DistinctLength(rest);
      assert (set x | x in s) == (set x | x in rest) + {s[0]};
      assert s[0] !in rest by {
        forall j | 0 <= j < |rest| ensures rest[j] != s[0] {
          assert rest[j] == s[j + 1];
        }
      }
    }
  }

  /** `getProductById`: the stored entity converted, or "Product not found". */
  function GetProductById(store: Store, id: int): (r: Result<ProductDto, Exception>)
    ensures r.Success? <==> id in store
    ensures r.Success? ==>
      && r.value.id == Some(id)
      && r.value.name == store[id].name
      && r.value.description == store[id].description
      && r.value.price == store[id].price
      && r.value.available == store[id].available
      && r.value.code.None?
    ensures r.Failure? ==> r.error == Runtime(NotFoundMessage)
  {
    if id in store then Success(ConvertToDto(store[id]))
    else Failure(Runtime(NotFoundMessage))
  }

  /** `deleteProductById`: look the entity up, then delete by its own id. */
  function DeleteProductById(store: Store, id: int): (r: Result<Store, Exception>)
    ensures r.Failure? <==> id !in store
    ensures r.Failure? ==> r.error == Runtime(NotFoundMessage)
    ensures r.Success? ==>
      && r.value.Keys == store.Keys - {id}
      && forall k | k in r.value :: r.value[k] == store[k]
  {
    if id !in store then Failure(Runtime(NotFoundMessage))
    else
      var stored := store[id].id.value;
      Success(map k | k in store && k != stored :: store[k])
  }

  datatype Created = Created(store: Store, dto: ProductDto)

  /** `createProduct`: refuse a code already stored, otherwise convert,
      save once and return the saved entity converted back. */
  function CreateProduct(store: Store, dto: ProductDto, freshId: int): (r: Result<Created, Exception>)
    requires freshId !in store
    ensures CodeTaken(store, dto.code) == Success(true) ==>
      r == Failure(IllegalArgument(DuplicateMessage(dto.code)))
    ensures CodeTaken(store, dto.code).Failure? ==> r == Failure(CodeTaken(store, dto.code).error)
    ensures r.Success? <==> CodeTaken(store, dto.code) == Success(false)
    ensures r.Success? ==>
      && r.value.dto.id.Some?
      && var key := r.value.dto.id.value;
      && r.value.store.Keys == store.Keys + {key}
      && (dto.id.Some? ==> key == dto.id.value)
      && (dto.id.None? ==> key == freshId)
      && r.value.store[key] == ConvertToProduct(dto).(id := Some(key))
      && r.value.dto == ConvertToDto(r.value.store[key])
      && forall k | k in store && k != key :: r.value.store[k] == store[k]
  {
    var taken :- CodeTaken(store, dto.code);
    if taken then Failure(IllegalArgument(DuplicateMessage(dto.code)))
    else
      var saved := Save(store, ConvertToProduct(dto), freshId);
      Success(Created(saved.store, ConvertToDto(saved.entity)))
  }

  /** After a delete the id is gone: fetching it reports "Product not found". */
  lemma DeleteThenGetNotFound(store: Store, id: int)
    requires id in store
    ensures DeleteProductById(store, id).Success?
    ensures GetProductById(DeleteProductById(store, id).value, id) == Failure(Runtime(NotFoundMessage))
  {
  }

  /** What `createProduct` returns is what a later `getProductById` of the
      returned id finds. */
  lemma CreateThenGet(store: Store, dto: ProductDto, freshId: int)
    requires freshId !in store
    requires CreateProduct(store, dto, freshId).Success?
    ensures var c := CreateProduct(store, dto, freshId).value;
      GetProductById(c.store, c.dto.id.value) == Success(c.dto)
  {
  }

  /** Products created through the service are stored with a null code, so
      they never count as holding the code they were created with: a
      second creation with the same non-null code is not refused because
      of the first. */
  lemma CreatedCodeNotRecorded(store: Store, dto: ProductDto, freshId: int, code: string)
    requires freshId !in store
    requires dto.code == Some(code)
    requires CreateProduct(store, dto, freshId).Success?
    ensures CodeTaken(CreateProduct(store, dto, freshId).value.store, Some(code)) == Success(false)
  {
    var c := CreateProduct(store, dto, freshId).value;
    var s' := c.store;
    forall k | k in s' ensures s'[k].code != Some(code) {
      if k != c.dto.id.value { assert s'[k] == store[k]; }
    }
  }
}

=== FILE: security_config.dfy ===
/** `SecurityConfig.securityFilterChain`: the authorization rule list, tried
    in declared order with the first matching rule deciding, and the place of
    the JWT filter in front of it. */
module SecurityConfig {
  import opened Wrappers
  import opened Strings
  import opened JwtUtils
  import opened JwtFilter

  // `requestMatchers("/base/**")` or `anyRequest()`.
  datatype Matcher = AnyRequest | Subtree(base: string)

  datatype Access = PermitAll | Authenticated

  datatype Rule = Rule(matcher: Matcher, access: Access)

  // The pattern "/base/**" matches the base path itself and every path below it.
  predicate Matches(m: Matcher, path: string) {
    match m
    case AnyRequest => true
    case Subtree(base) => path == base || StartsWith(path, base + "/")
  }

  /** The rules in their declared order. */
  const Rules: seq<Rule> := [
    Rule(Subtree("/api/auth"), PermitAll),
    Rule(Subtree("/api/distance"), PermitAll),
    Rule(AnyRequest, Authenticated)
  ]

  /** The access of the first rule whose matcher accepts `path`. */
  function FirstMatch(rules: seq<Rule>, path: string): (r: Option<Access>)
    ensures r.Some? ==> exists i | 0 <= i < |rules| ::
      Matches(rules[i].matcher, path) && rules[i].access == r.value
    ensures r.None? ==> forall j | 0 <= j < |rules| :: !Matches(rules[j].matcher, path)
  {
    if |rules| == 0 then None
    else if Matches(rules[0].matcher, path) then Some(rules[0].access)
    else
      assert forall j | 0 <= j < |rules| - 1 :: rules[1..][j] == rules[j + 1];
      FirstMatch(rules[1..], path)
  }

  /** Rule `i` matches and no earlier rule does. */
  ghost predicate DecidesAt(rules: seq<Rule>, path: string, i: int) {
    && 0 <= i < |rules|
    && Matches(rules[i].matcher, path)
    && forall j | 0 <= j < i :: !Matches(rules[j].matcher, path)
  }

  /** `FirstMatch` returns the access of the earliest matching rule, and
      nothing exactly when no rule matches. */
  lemma {:induction false} FirstMatchIsEarliest(rules: seq<Rule>, path: string)
    ensures FirstMatch(rules, path).None? <==>
      forall j | 0 <= j < |rules| :: !Matches(rules[j].matcher, path)
    ensures forall i | DecidesAt(rules, path, i) :: FirstMatch(rules, path) == Some(rules[i].access)
  {
    if |rules| > 0 && !Matches(rules[0].matcher, path) {
      FirstMatchIsEarliest(rules[1..], path);
      forall i | DecidesAt(rules, path, i)
        ensures FirstMatch(rules, path) == Some(rules[i].access)
      {
        assert i > 0;
        assert DecidesAt(rules[1..], path, i - 1) by {
          forall j | 0 <= j < i - 1 ensures !Matches(rules[1..][j].matcher, path) {
            assert rules[1..][j] == rules[j + 1];
          }
        }
      }
      forall j | 0 <= j < |rules[1..]| ensures rules[1..][j] == rules[j + 1] { }
    }
  }

  predicate IsPublic(path: string) {
    Matches(Subtree("/api/auth"), path) || Matches(Subtree("/api/distance"), path)
  }

  /** On the declared rules, a public path is decided by a permit-all rule
      and every other path by the catch-all. */
  lemma DeclaredRulesDecision(path: string)
    ensures FirstMatch(Rules, path) == if IsPublic(path) then Some(PermitAll) else Some(Authenticated)
  {
    FirstMatchIsEarliest(Rules, path);
    if Matches(Rules[0].matcher, path) {
      assert DecidesAt(Rules, path, 0);
    } else if Matches(Rules[1].matcher, path) {
      assert DecidesAt(Rules, path, 1);
    } else {
      assert DecidesAt(Rules, path, 2);
    }
  }

  /** Whether the request may reach the controller: on a public path
      always, elsewhere only when authenticated. */
  function Allowed(path: string, authenticated: bool): (r: bool)
    ensures r <==> IsPublic(path) || authenticated
  {
    DeclaredRulesDecision(path);
    match FirstMatch(Rules, path)
    case Some(PermitAll) => true
    case Some(Authenticated) => authenticated
    case None => false
  }

  /** A path one of the two public rules matches is allowed either way. */
  lemma PublicPathsAllowed(path: string, authenticated: bool)
    requires IsPublic(path)
    ensures Allowed(path, authenticated)
  {
  }

  /** The authentication endpoints are public. */
  lemma AuthRoutesPublic(path: string, authenticated: bool)
    requires path == "/api/auth" || StartsWith(path, "/api/auth/")
    ensures Allowed(path, authenticated)
  {
    assert "/api/auth" + "/" == "/api/auth/";
    PublicPathsAllowed(path, authenticated);
  }

  /** The distance endpoints are public. */
  lemma DistanceRoutesPublic(path: string, authenticated: bool)
    requires path == "/api/distance" || StartsWith(path, "/api/distance/")
    ensures Allowed(path, authenticated)
  {
    assert "/api/distance" + "/" == "/api/distance/";
    PublicPathsAllowed(path, authenticated);
  }

  /** Every other path, `/products` among them, needs authentication. */
  lemma OtherRoutesNeedAuthentication(path: string, authenticated: bool)
    requires !IsPublic(path)
    ensures Allowed(path, authenticated) == authenticated
  {
    FirstMatchIsEarliest(Rules, path);
    assert DecidesAt(Rules, path, 2);
  }

  /** The first matching rule decides: the catch-all never reopens a path
      a public rule took, and the decision equals that of the earliest
      matching rule. */
  lemma RulesTriedInOrder(path: string, authenticated: bool)
    ensures exists i :: DecidesAt(Rules, path, i)
    ensures forall i | DecidesAt(Rules, path, i) ::
      Allowed(path, authenticated) == (Rules[i].access == PermitAll || authenticated)
  {
    FirstMatchIsEarliest(Rules, path);
    if Matches(Rules[0].matcher, path) {
      assert DecidesAt(Rules, path, 0);
    } else if Matches(Rules[1].matcher, path) {
      assert DecidesAt(Rules, path, 1);
    } else {
      assert DecidesAt(Rules, path, 2);
    }
  }

  /** Becoming authenticated never turns an allowed request into a
      refused one. */
  lemma AuthenticationIsMonotone(path: string)
    ensures Allowed(path, false) ==> Allowed(path, true)
  {
  }

  /** What becomes of one request: the filter raised, authorization refused
      it, or it reaches the controller with the resulting context. */
  datatype Disposition =
    | FilterFailed(error: GateError)
    | Denied(context: Context)
    | Admitted(context: Context)

  /** The filter chain: the JWT filter runs first on every request, then
      the rule list decides on the context it leaves. */
  function Serve(jwt: Settings, loadUser: UserLookup, header: Option<string>,
                 path: string, context: Context, now: Long): (d: Disposition)
    ensures d.FilterFailed? <==> DoFilterInternal(jwt, loadUser, header, context, now).Aborted?
    ensures !d.FilterFailed? ==> d.context == DoFilterInternal(jwt, loadUser, header, context, now).context
    ensures d.Admitted? ==> Allowed(path, d.context.Some?)
    ensures d.Denied? ==> !Allowed(path, d.context.Some?)
  {
    match DoFilterInternal(jwt, loadUser, header, context, now)
    case Aborted(e, _) => FilterFailed(e)
    case Continued(ctx, _) => if Allowed(path, ctx.Some?) then Admitted(ctx) else Denied(ctx)
  }

  /** The filter runs on public paths too: a token that fails to parse ends
      even a request to a public path before authorization is consulted. */
  lemma FilterRunsOnPublicPaths(jwt: Settings, loadUser: UserLookup, token: string,
                                path: string, context: Context, now: Long)
    requires IsPublic(path)
    requires ExtractUsername(jwt, token).Failure?
    ensures Serve(jwt, loadUser, Some(BearerPrefix + token), path, context, now)
         == FilterFailed(TokenRejected(ExtractUsername(jwt, token).error))
  {
    BearerPrefixStripped(token);
  }

  /** A public path with no credentials is admitted, unauthenticated. */
  lemma PublicPathWithoutHeaderAdmitted(jwt: Settings, loadUser: UserLookup, path: string, now: Long)
    requires IsPublic(path)
    ensures Serve(jwt, loadUser, None, path, None, now) == Admitted(None)
  {
    PublicPathsAllowed(path, false);
  }

  /** A protected path with no credentials is refused. */
  lemma ProtectedPathWithoutHeaderDenied(jwt: Settings, loadUser: UserLookup, path: string, now: Long)
    requires !IsPublic(path)
    ensures Serve(jwt, loadUser, None, path, None, now) == Denied(None)
  {
    OtherRoutesNeedAuthentication(path, false);
  }
}

=== FILE: strings.dfy ===
/** The two `String` queries the source relies on: `startsWith` (the bearer
    prefix test) and `contains` (the duplicate-code test of the exception
    handler). Java compares UTF-16 code units; the model compares `char`s. */
module Strings {

  /** `s.startsWith(p)` */
  predicate StartsWith(s: string, p: string) {
    |p| <= |s| && s[..|p|] == p
  }

  /** `x` occurs in `s` starting at index `i`. */
  predicate OccursAt(s: string, x: string, i: int) {
    0 <= i && i + |x| <= |s| && s[i..i + |x|] == x
  }

  /** `s.contains(x)` */
  predicate Contains(s: string, x: string) {
    exists i | 0 <= i <= |s| :: OccursAt(s, x, i)
  }

  /** An occurrence of `x` cannot span a character that `x` does not hold. */
  lemma OccurrenceAvoids(s: string, x: string, i: nat, j: nat)
    requires OccursAt(s, x, i)
    requires j < |s| && s[j] !in x
    ensures j < i || i + |x| <= j
  {
  }

  /** An occurrence inside a slice is an occurrence in the whole string. */
  lemma OccursInSlice(s: string, x: string, lo: nat, hi: nat, i: nat)
    requires lo <= hi <= |s|
    requires lo + i + |x| <= hi
    ensures OccursAt(s[lo..hi], x, i) <==> OccursAt(s, x, lo + i)
  {
    var t := s[lo..hi];
    assert forall k | i <= k < i + |x| :: t[k] == s[lo + k];
    assert t[i..i + |x|] == s[lo + i..lo + i + |x|];
  }

  /** An occurrence in the middle part is an occurrence in the whole. */
  lemma ContainsInMiddle(pre: string, mid: string, post: string, x: string)
    requires Contains(mid, x)
    ensures Contains(pre + mid + post, x)
  {
    var s := pre + mid + post;
    var i :| 0 <= i <= |mid| && OccursAt(mid, x, i);
    assert s[|pre|..|pre| + |mid|] == mid;
    OccursInSlice(s, x, |pre|, |pre| + |mid|, i);
    assert OccursAt(s, x, |pre| + i);
  }

  /** When the characters on either side of the middle part cannot occur
      in `x`, and the outer parts hold no occurrence of their own, every
      occurrence in the whole lies in the middle part. */
  lemma ContainsOnlyInMiddle(pre: string, mid: string, post: string, x: string)
    requires |pre| > 0 && |post| > 0
    requires pre[|pre| - 1] !in x && post[0] !in x
    requires !Contains(pre[..|pre| - 1], x) && !Contains(post[1..], x)
    requires Contains(pre + mid + post, x)
    ensures Contains(mid, x)
  {
    var s := pre + mid + post;
    var i :| 0 <= i <= |s| && OccursAt(s, x, i);
    assert s[|pre| - 1] == pre[|pre| - 1];
    assert s[|pre| + |mid|] == post[0];
    OccurrenceAvoids(s, x, i, |pre| - 1);
    OccurrenceAvoids(s, x, i, |pre| + |mid|);
    if i + |x| <= |pre| - 1 {
      assert s[..|pre| - 1] == pre[..|pre| - 1];
      OccursInSlice(s, x, 0, |pre| - 1, i);
      assert OccursAt(pre[..|pre| - 1], x, i);
    } else if i >= |pre| + |mid| + 1 {
      assert s[|pre| + |mid| + 1..] == post[1..];
      OccursInSlice(s, x, |pre| + |mid| + 1, |s|, i - (|pre| + |mid| + 1));
      assert OccursAt(post[1..], x, i - (|pre| + |mid| + 1));
    } else {
      assert s[|pre|..|pre| + |mid|] == mid;
      OccursInSlice(s, x, |pre|, |pre| + |mid|, i - |pre|);
      assert OccursAt(mid, x, i - |pre|);
    }
  }

  /** `x` is absent from `s` when no position that leaves room for `x`
      starts with the first character of `x`. */
  lemma AbsentFirstCharacter(s: string, x: string)
    requires |x| > 0
    requires forall i | 0 <= i && i + |x| <= |s| :: s[i] != x[0]
    ensures !Contains(s, x)
  {
    forall i | 0 <= i <= |s| ensures !OccursAt(s, x, i) {
      if i + |x| <= |s| {
        assert s[i..i + |x|][0] == s[i] != x[0];
      }
    }
  }
}

=== FILE: wrappers.dfy ===
/** Optional values and the failure-compatible `Result`, shared by every
    module of the model.
    `Option` stands for a Java reference that may be null (or an empty
    `Optional`); `Result` stands for a call that either returns a value or
    throws. */
module Wrappers {

  datatype Option<+T> = None | Some(value: T)

  datatype Result<+R, +E> = Success(value: R) | Failure(error: E) {
    predicate IsFailure() { Failure? }

    function PropagateFailure<U>(): Result<U, E>
      requires Failure?
    {
      Failure(error)
    }

    function Extract(): R
      requires Success?
    {
      value
    }
  }
}
